=== FILE: README.md ===
# Portmanteau blending engine in Dafny

A model of the blending engine of `portmanteau.py`. The engine joins two English words into
one. It works on their phoneme sequences (CMU pronunciations) and on their spellings:

- **Overlap filter.** `longest_common_subsequence` takes difflib's longest common block of
  two pronunciations. It then rejects the block by five ordered rules: a degenerate start, a
  shared ending, the seam leaving word 1, the seam entering word 2, and too little material
  kept.
- **Overlap search.** `get_match` picks the first largest surviving block over all pairs of
  pronunciations, word 1 outer and word 2 inner.
- **Cut.** `blend` cuts both pronunciations at the end of that block.
- **Vowel-boundary fallback.** `basic_portmanteau` cuts word 1 before one of its vowels and
  word 2 at its first vowel.
- **Literal fallback.** `last_resort_portmanteau` joins the two words' letters half and
  half.
- **Spelling reconstruction.** `get_orthography` rebuilds a fragment's letters. It takes
  the product of the spelling table `SPELLINGS` and keeps the candidates that start (or end)
  the source word. It picks the longest, with the "e" / "ed" / "ol" exclusions.

Modules, one file each:

- `Wrappers` (`wrappers.dfy`): `Option`, `Result`, and the Python exceptions the engine can
  raise (`Fault`).
- `Phonology` (`phonology.dfy`): pronunciations, the vowel classifier, vowel positions.
- `LongestMatch` (`longest_match.dfy`): the documented contract of difflib's
  `find_longest_match`. A scan is proved to meet it, and the contract is shown to fix the
  result uniquely.
- `Overlap` (`overlap.dfy`): `longest_common_subsequence`, `get_match` and `blend`.
- `Fallback` (`fallback.dfy`): `last_resort_portmanteau`, Python's `round`, and
  `basic_portmanteau`.
- `Orthography` (`orthography.dfy`): `SPELLINGS` and `get_orthography`.

Some choices about how the model is written:

- The phoneme database answers only "is this phoneme a vowel". The model passes that in as a
  parameter `isVowel`.
- Each exception the source can raise becomes an `Err` carrying the exception's kind:
  - IndexError: `word2[b+size]` past the end, word 1 without vowels, an empty segment.
  - ValueError: word 2 without a vowel.
  - KeyError: a phoneme missing from the spelling table.
- Rule 5 compares with a float `/ 2 - 1`. The model states it in doubled integers.
- Python's `max` returns the first maximal element. `get_match` is modelled as one pass that
  replaces its candidate only on a strictly larger match, which is equivalent.

## Model

| member | source | states |
|---|---|---|
| Phonology.VowelIndices | portmanteau.py:181 | the positions listed are exactly the vowel positions of the pronunciation, in increasing order |
| Phonology.VowelAtOnset | portmanteau.py:186 | the first listed vowel position is 0 exactly when the pronunciation starts with a vowel |
| Phonology.FirstVowel | portmanteau.py:190 | `index("vowel")`: the first vowel position, with no vowel before it; None exactly when there is no vowel (where the source raises ValueError) |
| LongestMatch.FindLongestMatch | portmanteau.py:141 | the result meets difflib's contract: a common block of maximal size; among maximal blocks, the earliest start in word 1, then in word 2; (0, 0, 0) when nothing matches |
| LongestMatch.LongestMatchUnique | portmanteau.py:141 | the contract allows only one result, so any implementation meeting it gives the same match |
| Overlap.LongestCommonSubsequence | portmanteau.py:140-154 | IndexError exactly when rule 3 would index past the end of word 2; any block returned is difflib's; that block is returned exactly when it passes all five rules; a returned block has size at least 1 |
| Overlap.NoSharedPhonemeNoOverlap | portmanteau.py:141-144 | pronunciations with no phoneme in common give None, because difflib's (0, 0, 0) falls under rule 1 |
| Overlap.AcceptedBlendIsBalanced | portmanteau.py:147-152 | cutting at an accepted match keeps at least one phoneme of word 1 and at least (\|w1\|+\|w2\|)/2 - 1 phonemes in all; the seam leaving word 1 has a vowel before it or right after it |
| Overlap.SearchPairs | portmanteau.py:158-165 | a search that raises nothing has seen every pair: None when no pair was accepted, otherwise an accepted pair none before it beats and none in the grid exceeds; an error only when some pair raises that same exception |
| Overlap.GetMatch | portmanteau.py:157-167 | an exception from some pair propagates, and it is always IndexError; None exactly when every pair is rejected; otherwise the first largest accepted match in word-1-outer, word-2-inner order, with its pair |
| Overlap.Blend | portmanteau.py:170-171 | word 1 up to the end of the match and word 2 after it, each clamped to the sequence as Python slices are |
| Overlap.BlendJoinsAtBlock | portmanteau.py:170-171 | for a common block, the two fragments read together as word 1 before the block followed by word 2 from the block on, and fragment 1 ends with the block |
| Fallback.LastResortPortmanteau | portmanteau.py:136-137 | the result is word 1's first floor-half followed by word 2 from its floor-middle, of length \|w1\|/2 + (\|w2\| - \|w2\|/2) |
| Fallback.LastResortOfSameWord | portmanteau.py:136-137 | blending a word with itself gives the word back |
| Fallback.RoundHalfEven | portmanteau.py:183 | Python's `round(n / 2)`: within one half of n / 2, and even whenever n / 2 is not whole |
| Fallback.RoundHalfEvenUnique | portmanteau.py:183 | those two properties determine the value, so they are round-half-to-even |
| Fallback.RoundHalfEvenExamples | portmanteau.py:183 | 3, 5, 7 vowels give 2, 2, 4; 4 and 6 give 2 and 3 |
| Fallback.AdvancePastOnset | portmanteau.py:186-189 | the loop stops at the first listed position from i that is not 0, or reports that all remaining positions are 0 |
| Fallback.VowelCut | portmanteau.py:181-189 | IndexError exactly when word 1 has no vowel; None exactly when its only vowel is its first phoneme; otherwise an inner vowel position of word 1, the one of rank round(n/2) of n > 2 vowels or the first one not at position 0 |
| Fallback.BasicPortmanteau | portmanteau.py:179-191 | IndexError exactly when word 1 has no vowel; ([], []) exactly when its only vowel is its first phoneme; ValueError exactly when word 2 then has no vowel; no other exception, so a result exactly when word 1 has a vowel and either its only vowel is its first phoneme or word 2 has a vowel; otherwise fragment 1 is a non-empty proper prefix of word 1 ending just before the vowel of that rank, and fragment 2 is word 2 from its first vowel on |
| Orthography.ProductMembers | portmanteau.py:197-198 | the joined product holds exactly the concatenations of one element of each list |
| Orthography.ProductLength | portmanteau.py:197-198 | the joined product lists \|xs\| * \|ys\| strings |
| Orthography.ProductAt | portmanteau.py:197-198 | the pair (xs[i], ys[j]) is joined at position i * \|ys\| + j, so each pair is listed exactly once, x-major |
| Orthography.Candidates | portmanteau.py:195-198 | IndexError exactly when the segment is empty; KeyError exactly when, otherwise, one of its phonemes is missing from the table |
| Orthography.CandidatesSpell | portmanteau.py:195-198 | for a non-empty segment of known phonemes, the candidates are exactly the strings made of one table entry per phoneme, in order |
| Orthography.Filter | portmanteau.py:199-202 | the kept candidates are exactly those that end the word (anchored at the end) or start it (otherwise) |
| Orthography.FilterKeepsCounts | portmanteau.py:199-202 | a fitting candidate is kept as many times as it is listed, and any other is dropped |
| Orthography.FitsSameLengthEqual | portmanteau.py:199-202 | two candidates that fit the word at the same end and have the same length are the same string |
| Orthography.FilterKeepsOrder | portmanteau.py:199-202 | the kept candidates appear in the order of the candidate list |
| Orthography.LongestFirst | portmanteau.py:204 | `max(..., key=len)`: a position whose string is as long as any, and longer than every one before it |
| Orthography.IndexOf | portmanteau.py:206 | the position of the first occurrence |
| Orthography.RemoveFirst | portmanteau.py:206 | `list.remove`: one copy fewer of the removed string, nothing else added or lost, the first copy removed and the order of the rest kept |
| Orthography.PickSpelling | portmanteau.py:203-213 | None exactly when no candidate fits (the caught ValueError of `max`) |
| Orthography.PickSpellingChoosesLongest | portmanteau.py:203-213 | the pick is one of the candidates; it is the first longest candidate d unless d is excluded ("e" at the end for a start, "ed" / "ol" at the start for an end) and more than one candidate fits; then it is the first longest candidate of what remains once the first copy of d is removed |
| Orthography.PickSpellingSkipsExcluded | portmanteau.py:204-210 | when the longest candidate is excluded, strictly longer than every other, occurs once, and another candidate fits, the pick is shorter than it and as long as any other candidate |
| Orthography.PickSpellingKeepsLongest | portmanteau.py:204-211 | in every other case the pick is as long as any candidate |
| Orthography.RepeatedCandidateDefeatsTieBreak | portmanteau.py:205-207 | a candidate that fits twice is not passed over: of "d", "de", "de" at the start of a word, "de" is picked |
| Orthography.GetOrthography | portmanteau.py:194-213 | IndexError exactly for an empty segment; KeyError exactly for a non-empty segment with an unknown phoneme; no other exception |
| Orthography.GetOrthographyChoosesLongest | portmanteau.py:194-213 | None exactly when no spelling of the segment from the table fits the word; otherwise a fitting spelling; when one fitting spelling is excluded, strictly longer than every other, listed once, and another spelling fits, the pick is shorter than it and as long as any other fitting spelling; otherwise the pick is as long as any fitting spelling |
| Orthography.SpellingTableTieBreaks | portmanteau.py:18-56 | on the table `SPELLINGS` itself, both exclusions act: D at the start of "deal" is spelled "d", not "de", and D at the end of "bed" is spelled "d", not "ed" |

## Left out

- The web handlers `get_answer`, `run` and `display` are not modelled. They are HTTP and JSON plumbing around the engine, and `get_answer` is defective: it reads a variable assigned only when there is a match, joins a possibly missing spelling into a string, and overwrites its own error answers.
- SQLite access, `get_types` and `search_phoneme` are not modelled. The vowel class is the parameter `isVowel`, and pronunciations are inputs. An unknown phoneme, which makes `search_phoneme` raise, is not modelled.
- The CMU dictionary loaders and the command-line entry point are not modelled, because they are file I/O and database loading.
- difflib's internals are not modelled. That includes the autojunk heuristic, which only acts on sequences of 200 or more items. `find_longest_match` is specified by its documented result only.
- `get_orthography` takes the spelling table as a parameter. `Spellings` holds the module's table, and the examples apply to it.
- Orthography.GetOrthographyChoosesLongest: the tie-break statement needs the excluded spelling to be listed once, because a repeated candidate survives the removal of its first copy (`RepeatedCandidateDefeatsTieBreak`).
- Three points where the code does less than a first reading suggests; the model follows the code:
  - Rule 1 rejects a match at the start of word 1 that starts at the last phoneme of word 2 (`b == len(word2) - 1`), not one that ends there.
  - Rule 5 measures `word1[:a] + word2[b:]`, from the match starts. A cut at the match ends keeps the same length, so the two readings agree.
  - `basic_portmanteau` raises ValueError when word 2 has no vowel. It does not return empty fragments.

=== FILE: fallback.dfy ===
/** The two fallbacks of the engine: the literal half-split of the spellings
    (`last_resort_portmanteau`) and the cut at vowel boundaries (`basic_portmanteau`). */
module Fallback {
  import opened Wrappers
  import opened Phonology

  /** `last_resort_portmanteau(word1, word2)`: the first half of word 1 (rounded down)
      followed by word 2 from its middle (rounded down) on. */
  function LastResortPortmanteau(w1: string, w2: string): (r: string)
    ensures |r| == |w1| / 2 + (|w2| - |w2| / 2)
    ensures r[..|w1| / 2] == w1[..|w1| / 2]
    ensures r[|w1| / 2..] == w2[|w2| / 2..]
  {
    w1[..|w1| / 2] + w2[|w2| / 2..]
  }

  /** Blending a word with itself gives the word back. */
  lemma LastResortOfSameWord(w: string)
    ensures LastResortPortmanteau(w, w) == w
  {
    assert w[..|w| / 2] + w[|w| / 2..] == w;
  }

  /** Python's `round(n / 2)`: the integer nearest to n / 2, halves going to the even one. */
  function RoundHalfEven(n: nat): (r: nat)
    ensures -1 <= 2 * r - n <= 1
    ensures 2 * r != n ==> r % 2 == 0
  {
    if n % 2 == 0 then n / 2
    else if (n / 2) % 2 == 0 then n / 2
    else n / 2 + 1
  }

  /** The two properties above leave only one choice, so they are Python's rounding. */
  lemma RoundHalfEvenUnique(n: nat, r: nat)
    requires -1 <= 2 * r - n <= 1
    requires 2 * r != n ==> r % 2 == 0
    ensures r == RoundHalfEven(n)
  {
  }

  lemma RoundHalfEvenExamples()
    ensures RoundHalfEven(3) == 2 && RoundHalfEven(5) == 2 && RoundHalfEven(7) == 4
    ensures RoundHalfEven(4) == 2 && RoundHalfEven(6) == 3
  {
  }

  /** The loop at the vowel cut: step past vowel positions equal to 0, None once the vowels
      run out. */
  function AdvancePastOnset(vs: seq<nat>, i: nat): (r: Option<nat>)
    requires i < |vs|
    ensures r.Some? ==> i <= r.value < |vs| && vs[r.value] != 0
    ensures r.Some? ==> forall t :: i <= t < r.value ==> vs[t] == 0
    ensures r.None? ==> forall t :: i <= t < |vs| ==> vs[t] == 0
    decreases |vs| - i
  {
    if vs[i] != 0 then Some(i)
    else if i + 1 >= |vs| then None
    else AdvancePastOnset(vs, i + 1)
  }

  /** The only vowel of `s` is its first phoneme. */
  predicate OnlyOnsetVowel(s: Pronunciation, isVowel: Classifier)
  {
    |s| > 0 && isVowel(s[0]) && forall k :: 0 < k < |s| ==> !isVowel(s[k])
  }

  /** Which vowel of word 1 (counting from 0) the cut falls before: round(n / 2) of n > 2
      vowels, otherwise the first vowel that is not the word's first phoneme. */
  function CutRank(s: Pronunciation, isVowel: Classifier): nat
  {
    var n := |VowelIndices(s, isVowel)|;
    if n > 2 then RoundHalfEven(n) else if |s| > 0 && isVowel(s[0]) then 1 else 0
  }

  /** The first half of `basic_portmanteau`: where word 1 is cut. IndexError when word 1 has
      no vowel, None when its only vowel is its first phoneme, otherwise the position of the
      vowel the cut falls before. */
  function VowelCut(w1: Pronunciation, isVowel: Classifier): (r: Result<Option<nat>>)
    ensures r.Err? <==> !HasVowel(w1, isVowel)
    ensures r.Err? ==> r.fault == IndexError
    ensures r == Ok(None) <==> OnlyOnsetVowel(w1, isVowel)
    ensures r.Ok? && r.value.Some? ==>
              && 0 < r.value.value < |w1| && isVowel(w1[r.value.value])
              && CutRank(w1, isVowel) < |VowelIndices(w1, isVowel)|
              && r.value.value == VowelIndices(w1, isVowel)[CutRank(w1, isVowel)]
  {
    var vs := VowelIndices(w1, isVowel);
    VowelAtOnset(w1, isVowel);
    var i := if |vs| > 2 then RoundHalfEven(|vs|) else 0;
    if i >= |vs| then Err(IndexError)
    else
      match AdvancePastOnset(vs, i)
      case None => Ok(None)
      case Some(k) => Ok(Some(vs[k]))
  }

  /** `basic_portmanteau(word1, word2)`: word 1 up to one of its vowels and word 2 from its
      first vowel, or two empty fragments when word 1's only vowel is its first phoneme. */
  function BasicPortmanteau(w1: Pronunciation, w2: Pronunciation, isVowel: Classifier): (r: Result<(Pronunciation, Pronunciation)>)
    ensures r == Err(IndexError) <==> !HasVowel(w1, isVowel)
    ensures r == Err(ValueError) <==> HasVowel(w1, isVowel) && !OnlyOnsetVowel(w1, isVowel) && !HasVowel(w2, isVowel)
    ensures r == Ok(([], [])) <==> OnlyOnsetVowel(w1, isVowel)
    ensures r.Err? ==> r.fault == IndexError || r.fault == ValueError
    ensures r.Ok? <==> HasVowel(w1, isVowel) && (OnlyOnsetVowel(w1, isVowel) || HasVowel(w2, isVowel))
    ensures r.Ok? && !OnlyOnsetVowel(w1, isVowel) ==>
              var (f1, f2) := r.value;
              && 0 < |f1| < |w1| && f1 == w1[..|f1|] && isVowel(w1[|f1|])
              && CutRank(w1, isVowel) < |VowelIndices(w1, isVowel)|
              && |f1| == VowelIndices(w1, isVowel)[CutRank(w1, isVowel)]
              && 0 < |f2| <= |w2| && f2 == w2[|w2| - |f2|..] && isVowel(f2[0])
              && forall k :: 0 <= k < |w2| - |f2| ==> !isVowel(w2[k])
  {
    match VowelCut(w1, isVowel)
    case Err(f) => Err(f)
    case Ok(None) => Ok(([], []))
    case Ok(Some(c)) =>
      match FirstVowel(w2, isVowel)
      case None => Err(ValueError)
      case Some(j) => Ok((w1[..c], w2[j..]))
  }
}

=== FILE: longest_match.dfy ===
/** The result contract of difflib's `SequenceMatcher(None, x, y).find_longest_match()`,
    and a plain scan over all start positions that meets it. The contract determines the
    result uniquely (LongestMatchUnique), so the scan stands for difflib without modelling
    difflib's own algorithm. */
module LongestMatch {

  /** A matching block as difflib reports it: x[a..a+size] equals y[b..b+size]. */
  datatype Match = Match(a: nat, b: nat, size: nat)

  /** x[i..i+k] and y[j..j+k] both lie inside their sequences and are equal. */
  predicate CommonBlock<T(==)>(x: seq<T>, y: seq<T>, i: nat, j: nat, k: nat)
  {
    i + k <= |x| && j + k <= |y| && x[i..i + k] == y[j..j + k]
  }

  /** Position (i, j) comes before (i', j') in row-major order: first by i, then by j. */
  predicate LexBefore(i: nat, j: nat, i': nat, j': nat)
  {
    i < i' || (i == i' && j < j')
  }

  /** difflib's documented contract: the block is common to both sequences and of maximal
      size; among maximal blocks it starts earliest in x, then earliest in y; and when
      nothing matches the result is (0, 0, 0). */
  ghost predicate IsLongestMatch<T>(x: seq<T>, y: seq<T>, m: Match)
  {
    && CommonBlock(x, y, m.a, m.b, m.size)
    && (forall i: nat, j: nat, k: nat :: CommonBlock(x, y, i, j, k) ==> k <= m.size)
    && (forall i: nat, j: nat :: m.size > 0 && CommonBlock(x, y, i, j, m.size) ==> !LexBefore(i, j, m.a, m.b))
    && (m.size == 0 ==> m.a == 0 && m.b == 0)
  }

  /** The contract leaves no freedom: two results that meet it are equal. */
  lemma LongestMatchUnique<T>(x: seq<T>, y: seq<T>, m1: Match, m2: Match)
    requires IsLongestMatch(x, y, m1) && IsLongestMatch(x, y, m2)
    ensures m1 == m2
  {
  }

  /** The length of the longest run of equal elements starting at x[i] and y[j]. */
  function RunLength<T(==)>(x: seq<T>, y: seq<T>, i: nat, j: nat): (k: nat)
    requires i <= |x| && j <= |y|
    ensures CommonBlock(x, y, i, j, k)
    ensures i + k == |x| || j + k == |y| || x[i + k] != y[j + k]
    decreases |x| - i
  {
    if i < |x| && j < |y| && x[i] == y[j] then
      var k := 1 + RunLength(x, y, i + 1, j + 1);
      assert x[i..i + k] == [x[i]] + x[i + 1..i + k];
      assert y[j..j + k] == [y[j]] + y[j + 1..j + k];
      k
    else
      0
  }

  /** Every common block starting at (i, j) fits inside the run starting there. */
  lemma {:induction false} BlockWithinRun<T>(x: seq<T>, y: seq<T>, i: nat, j: nat, k: nat)
    requires CommonBlock(x, y, i, j, k)
    ensures k <= RunLength(x, y, i, j)
    decreases k
  {
    if k > 0 {
      assert x[i..i + k][0] == x[i] && y[j..j + k][0] == y[j];
      assert x[i..i + k][1..] == x[i + 1..i + k] && y[j..j + k][1..] == y[j + 1..j + k];
      BlockWithinRun(x, y, i + 1, j + 1, k - 1);
    }
  }

  /** A non-empty common block starts with equal elements. */
  lemma BlockHeadsEqual<T>(x: seq<T>, y: seq<T>, i: nat, j: nat, k: nat)
    requires CommonBlock(x, y, i, j, k) && k > 0
    ensures x[i] == y[j]
  {
    assert x[i..i + k][0] == x[i] && y[j..j + k][0] == y[j];
  }

  /** `best` is the scan's answer for the start positions before (i, j): no run there is
      longer, and every run before `best`'s own start is strictly shorter. */
  ghost predicate ScannedUpTo<T>(x: seq<T>, y: seq<T>, i: nat, j: nat, best: Match)
  {
    && CommonBlock(x, y, best.a, best.b, best.size)
    && (best.size == 0 ==> best.a == 0 && best.b == 0)
    && (forall i': nat, j': nat :: i' < |x| && j' < |y| && LexBefore(i', j', i, j) ==>
          RunLength(x, y, i', j') <= best.size)
    && (forall i': nat, j': nat :: i' < |x| && j' < |y| && LexBefore(i', j', best.a, best.b) ==>
          RunLength(x, y, i', j') < best.size)
  }

  /** Visits the start positions from (i, j) on in row-major order, replacing `best` only by
      a strictly longer run. */
  function Scan<T(==)>(x: seq<T>, y: seq<T>, i: nat, j: nat, best: Match): (r: Match)
    requires i <= |x| && j <= |y|
    requires ScannedUpTo(x, y, i, j, best)
    ensures ScannedUpTo(x, y, |x|, 0, r)
    decreases |x| - i, |y| - j
  {
    if i == |x| then best
    else if j == |y| then
      ScanNextRow(x, y, i, best);
      Scan(x, y, i + 1, 0, best)
    else
      var k := RunLength(x, y, i, j);
      var next := if k > best.size then Match(i, j, k) else best;
      ScanStep(x, y, i, j, best, next);
      Scan(x, y, i, j + 1, next)
  }

  /** Finishing a row of start positions moves the scan to the start of the next row. */
  lemma ScanNextRow<T>(x: seq<T>, y: seq<T>, i: nat, best: Match)
    requires i < |x|
    requires ScannedUpTo(x, y, i, |y|, best)
    ensures ScannedUpTo(x, y, i + 1, 0, best)
  {
  }

  /** Visiting (i, j) and keeping the longer of `best` and the run there extends the scan. */
  lemma ScanStep<T>(x: seq<T>, y: seq<T>, i: nat, j: nat, best: Match, next: Match)
    requires i < |x| && j < |y|
    requires ScannedUpTo(x, y, i, j, best)
    requires next == if RunLength(x, y, i, j) > best.size then Match(i, j, RunLength(x, y, i, j)) else best
    ensures ScannedUpTo(x, y, i, j + 1, next)
  {
    var k := RunLength(x, y, i, j);
    forall i': nat, j': nat | i' < |x| && j' < |y| && LexBefore(i', j', i, j + 1)
      ensures RunLength(x, y, i', j') <= next.size
    {
      if LexBefore(i', j', i, j) {
      } else {
        assert i' == i && j' == j;
      }
    }
  }

  /** A scan over every start position meets difflib's contract. */
  lemma ScanIsLongest<T>(x: seq<T>, y: seq<T>, m: Match)
    requires ScannedUpTo(x, y, |x|, 0, m)
    ensures IsLongestMatch(x, y, m)
  {
    forall i: nat, j: nat, k: nat | CommonBlock(x, y, i, j, k)
      ensures k <= m.size
    {
      if k > 0 {
        BlockWithinRun(x, y, i, j, k);
      }
    }
    forall i: nat, j: nat | m.size > 0 && CommonBlock(x, y, i, j, m.size)
      ensures !LexBefore(i, j, m.a, m.b)
    {
      BlockWithinRun(x, y, i, j, m.size);
    }
  }

  /** `find_longest_match()` over the whole of both sequences. */
  function FindLongestMatch<T(==)>(x: seq<T>, y: seq<T>): (m: Match)
    ensures IsLongestMatch(x, y, m)
  {
    assert x[0..0] == y[0..0];
    var m := Scan(x, y, 0, 0, Match(0, 0, 0));
    ScanIsLongest(x, y, m);
    m
  }
}

=== FILE: orthography.dfy ===
/** The orthography reconstructor (`get_orthography`): every spelling of a phoneme fragment
    that the spelling table allows, kept when it starts (or ends) the source word, and the
    longest of those with the "e" / "ed" / "ol" exclusions. */
module Orthography {
  import opened Wrappers
  import opened Phonology

  /** Candidate spellings per phoneme, in the order the product enumerates them. */
  type SpellingTable = map<Phoneme, seq<string>>

  /** The table `SPELLINGS`. The empty string is a legal candidate of AH, S and Y. */
  const Spellings: SpellingTable := map[
    "AA" := ["augh", "au", "ou", "o", "a", "al"],
    "AE" := ["a"],
    "AH" := ["u", "a", "o", "e", "i", "y", "ou", ""],
    "AO" := ["augh", "o", "aw", "a", "au", "ou"],
    "AW" := ["ou", "ow"],
    "AY" := ["igh", "ie", "i", "aye", "uy", "y", "ye"],
    "B" := ["be", "bb", "b"],
    "CH" := ["tch", "ch", "t"],
    "D" := ["d", "dd", "tt", "de", "ed"],
    "DH" := ["th", "the"],
    "EH" := ["e", "a", "ie"],
    "ER" := ["er", "ar", "ir", "or", "ur", "ure", "r"],
    "EY" := ["ay", "ai", "a", "eigh"],
    "F" := ["gh", "ff", "f", "fe"],
    "G" := ["gg", "g", "gue"],
    "HH" := ["h"],
    "IH" := ["i", "hi", "y", "a", "e"],
    "IY" := ["ea", "ee", "ie", "i", "y", "ei", "e"],
    "JH" := ["g", "ge", "j"],
    "K" := ["k", "ck", "ch", "c", "kh", "kk", "ke", "x"],
    "L" := ["ll", "l", "le", "ol"],
    "M" := ["mm", "m", "mb", "mn", "me"],
    "N" := ["nn", "kn", "mn", "gn", "n", "ne"],
    "NG" := ["ng", "ngue"],
    "OW" := ["oa", "owe", "ow", "oe", "aoh", "oh", "o", "hoa"],
    "OY" := ["oi", "oy", "aw"],
    "P" := ["pp", "pe", "p"],
    "R" := ["rr", "re", "wr", "r"],
    "S" := ["sc", "ss", "ps", "se", "ce", "c", "s", ""],
    "SH" := ["sh", "sch", "ti", "ci"],
    "T" := ["tt", "te", "bt", "t"],
    "TH" := ["th"],
    "UH" := ["oo", "u"],
    "UW" := ["ui", "oo", "ue", "ew", "ewe", "u", "ieu", "eau", "wo"],
    "V" := ["vv", "ve", "v"],
    "W" := ["wh", "we", "w", "u"],
    "Y" := ["yy", "y", ""],
    "Z" := ["zz", "ze", "se", "s", "z"],
    "ZH" := ["si", "s"]
  ]

  /** Python's `s.startswith(p)`. */
  predicate IsPrefix(p: string, s: string)
  {
    |p| <= |s| && s[..|p|] == p
  }

  /** Python's `s.endswith(p)`. */
  predicate IsSuffix(p: string, s: string)
  {
    |p| <= |s| && s[|s| - |p|..] == p
  }

  /** A candidate fits the source word: it ends the word when the fragment is anchored at the
      end, and starts it otherwise. */
  predicate Fits(c: string, word: string, atEnd: bool)
  {
    if atEnd then IsSuffix(c, word) else IsPrefix(c, word)
  }

  /** Candidates that fit the same word at the same end and have the same length are the same
      string, so "the longest fitting spelling" names a single string. */
  lemma FitsSameLengthEqual(c1: string, c2: string, word: string, atEnd: bool)
    requires Fits(c1, word, atEnd) && Fits(c2, word, atEnd) && |c1| == |c2|
    ensures c1 == c2
  {
  }

  /** The tie-break exclusions: at the start, a candidate ending in "e"; at the end, one
      starting with "ed" or "ol". */
  predicate Excluded(c: string, atEnd: bool)
  {
    if atEnd then IsPrefix("ed", c) || IsPrefix("ol", c) else IsSuffix("e", c)
  }

  /** `["".join(t) for t in product(xs, ys)]`: every x + y, x-major. */
  function Product(xs: seq<string>, ys: seq<string>): seq<string>
    decreases |xs|
  {
    if xs == [] then []
    else seq(|ys|, k requires 0 <= k < |ys| => xs[0] + ys[k]) + Product(xs[1..], ys)
  }

  /** The product holds exactly the concatenations of one element of each list. */
  lemma {:induction false} ProductMembers(xs: seq<string>, ys: seq<string>, c: string)
    ensures c in Product(xs, ys) <==> exists i, j :: 0 <= i < |xs| && 0 <= j < |ys| && c == xs[i] + ys[j]
    decreases |xs|
  {
    if xs != [] {
      var row := seq(|ys|, k requires 0 <= k < |ys| => xs[0] + ys[k]);
      assert Product(xs, ys) == row + Product(xs[1..], ys);
      ProductMembers(xs[1..], ys, c);
      if c in Product(xs, ys) {
        if c in row {
          var k :| 0 <= k < |ys| && row[k] == c;
          assert c == xs[0] + ys[k];
        } else {
          var i, j :| 0 <= i < |xs[1..]| && 0 <= j < |ys| && c == xs[1..][i] + ys[j];
          assert c == xs[i + 1] + ys[j];
        }
      }
      if exists i, j :: 0 <= i < |xs| && 0 <= j < |ys| && c == xs[i] + ys[j] {
        var i, j :| 0 <= i < |xs| && 0 <= j < |ys| && c == xs[i] + ys[j];
        if i == 0 {
          assert row[j] == c;
        } else {
          assert c == xs[1..][i - 1] + ys[j];
        }
      }
    }
  }

  /** The product lists |xs| * |ys| strings. */
  lemma {:induction false} ProductLength(xs: seq<string>, ys: seq<string>)
    ensures |Product(xs, ys)| == |xs| * |ys|
    decreases |xs|
  {
    if xs != [] {
      ProductLength(xs[1..], ys);
      assert |xs| * |ys| == |ys| + (|xs| - 1) * |ys|;
    }
  }

  /** Each pair (xs[i], ys[j]) is listed at position i * |ys| + j, so the product lists each
      pair once, x-major. */
  lemma {:induction false} ProductAt(xs: seq<string>, ys: seq<string>, i: nat, j: nat)
    requires i < |xs| && j < |ys|
    ensures i * |ys| + j < |Product(xs, ys)|
    ensures Product(xs, ys)[i * |ys| + j] == xs[i] + ys[j]
    decreases |xs|
  {
    var row := seq(|ys|, k requires 0 <= k < |ys| => xs[0] + ys[k]);
    assert Product(xs, ys) == row + Product(xs[1..], ys);
    if i > 0 {
      ProductAt(xs[1..], ys, i - 1, j);
      RowMajorStep(i, |ys|, j);
      assert xs[1..][i - 1] == xs[i];
    }
  }

  /** Position i * m + j lies one row of m after position (i - 1) * m + j. */
  lemma RowMajorStep(i: nat, m: nat, j: nat)
    requires i > 0
    ensures i * m + j == m + ((i - 1) * m + j)
  {
    assert i * m == m + (i - 1) * m;
  }

  /** The candidate list `possible_spellings` of a fragment: the table entry of its first
      phoneme, then one product per further phoneme. IndexError for an empty fragment and
      KeyError for a phoneme the table lacks. */
  function Candidates(seg: seq<Phoneme>, table: SpellingTable): (r: Result<seq<string>>)
    ensures r.Err? <==> |seg| == 0 || exists k :: 0 <= k < |seg| && seg[k] !in table
    ensures r.Err? ==> (r.fault == IndexError <==> |seg| == 0)
    ensures r.Err? ==> r.fault == IndexError || r.fault == KeyError
    decreases |seg|
  {
    if |seg| == 0 then Err(IndexError)
    else if |seg| == 1 then
      if seg[0] in table then Ok(table[seg[0]]) else Err(KeyError)
    else
      match Candidates(seg[..|seg| - 1], table)
      case Err(f) => Err(f)
      case Ok(cs) =>
        if seg[|seg| - 1] in table then Ok(Product(cs, table[seg[|seg| - 1]])) else Err(KeyError)
  }

  /** `c` splits into one table entry per phoneme of `seg`, in order. */
  ghost predicate Spells(c: string, seg: seq<Phoneme>, table: SpellingTable)
    decreases |seg|
  {
    if |seg| == 0 then c == ""
    else
      var p := seg[|seg| - 1];
      p in table && exists n :: 0 <= n <= |c| && c[n..] in table[p] && Spells(c[..n], seg[..|seg| - 1], table)
  }

  /** A one-phoneme fragment is spelled by exactly the entries of its phoneme. */
  lemma SpellsOnePhoneme(c: string, p: Phoneme, table: SpellingTable)
    requires p in table
    ensures c in table[p] <==> Spells(c, [p], table)
  {
    assert [p][..0] == [];
    if c in table[p] {
      assert c[0..] == c && c[..0] == "";
    }
  }

  /** Appending a phoneme to a fragment takes the product of its spellings with the phoneme's
      entries. */
  lemma SpellsAppend(c: string, seg: seq<Phoneme>, cs: seq<string>, table: SpellingTable)
    requires |seg| > 1 && seg[|seg| - 1] in table
    requires forall c' :: c' in cs <==> Spells(c', seg[..|seg| - 1], table)
    ensures c in Product(cs, table[seg[|seg| - 1]]) <==> Spells(c, seg, table)
  {
    var p := seg[|seg| - 1];
    var init := seg[..|seg| - 1];
    ProductMembers(cs, table[p], c);
    if c in Product(cs, table[p]) {
      var i, j :| 0 <= i < |cs| && 0 <= j < |table[p]| && c == cs[i] + table[p][j];
      var n := |cs[i]|;
      assert c[..n] == cs[i] && c[n..] == table[p][j];
      assert cs[i] in cs && table[p][j] in table[p];
      assert 0 <= n <= |c| && c[n..] in table[p] && Spells(c[..n], init, table);
      assert Spells(c, seg, table);
    }
    if Spells(c, seg, table) {
      var n :| 0 <= n <= |c| && c[n..] in table[p] && Spells(c[..n], init, table);
      var j :| 0 <= j < |table[p]| && table[p][j] == c[n..];
      assert c[..n] in cs;
      var i :| 0 <= i < |cs| && cs[i] == c[..n];
      assert c == cs[i] + table[p][j];
      assert exists i', j' :: 0 <= i' < |cs| && 0 <= j' < |table[p]| && c == cs[i'] + table[p][j'];
    }
  }

  /** The candidate list of a non-empty fragment holds exactly its spellings. */
  lemma {:induction false} CandidatesSpell(seg: seq<Phoneme>, table: SpellingTable)
    requires |seg| > 0 && forall k :: 0 <= k < |seg| ==> seg[k] in table
    ensures Candidates(seg, table).Ok?
    ensures forall c :: c in Candidates(seg, table).value <==> Spells(c, seg, table)
    decreases |seg|
  {
    if |seg| == 1 {
      assert seg == [seg[0]];
      forall c
        ensures c in table[seg[0]] <==> Spells(c, seg, table)
      {
        SpellsOnePhoneme(c, seg[0], table);
      }
    } else {
      var init := seg[..|seg| - 1];
      CandidatesSpell(init, table);
      var cs := Candidates(init, table).value;
      assert Candidates(seg, table) == Ok(Product(cs, table[seg[|seg| - 1]]));
      forall c
        ensures c in Product(cs, table[seg[|seg| - 1]]) <==> Spells(c, seg, table)
      {
        SpellsAppend(c, seg, cs, table);
      }
    }
  }

  /** `r` is `xs` with some elements left out, the rest in their order. */
  ghost predicate IsSubsequence(r: seq<string>, xs: seq<string>)
    decreases |xs|
  {
    if r == [] then true
    else if xs == [] then false
    else (r[0] == xs[0] && IsSubsequence(r[1..], xs[1..])) || IsSubsequence(r, xs[1..])
  }

  /** The list comprehension keeping the candidates that fit the word, in order. */
  function Filter(cs: seq<string>, word: string, atEnd: bool): (r: seq<string>)
    ensures forall c {:trigger c in r} :: c in r <==> c in cs && Fits(c, word, atEnd)
    ensures |r| <= |cs|
    decreases |cs|
  {
    if cs == [] then []
    else (if Fits(cs[0], word, atEnd) then [cs[0]] else []) + Filter(cs[1..], word, atEnd)
  }

  /** The filter keeps every fitting candidate with all its repeats and drops every other
      one. */
  lemma {:induction false} FilterKeepsCounts(cs: seq<string>, word: string, atEnd: bool)
    ensures var r := Filter(cs, word, atEnd);
            forall c :: multiset(r)[c] == if Fits(c, word, atEnd) then multiset(cs)[c] else 0
    decreases |cs|
  {
    if cs != [] {
      var r := Filter(cs, word, atEnd);
      var tail := Filter(cs[1..], word, atEnd);
      FilterKeepsCounts(cs[1..], word, atEnd);
      assert cs == [cs[0]] + cs[1..];
      assert multiset(cs) == multiset{cs[0]} + multiset(cs[1..]);
      if Fits(cs[0], word, atEnd) {
        assert r == [cs[0]] + tail;
        assert multiset(r) == multiset{cs[0]} + multiset(tail);
      } else {
        assert r == tail;
      }
      forall c
        ensures multiset(r)[c] == if Fits(c, word, atEnd) then multiset(cs)[c] else 0
      {
        assert multiset(cs)[c] == multiset{cs[0]}[c] + multiset(cs[1..])[c];
      }
    }
  }

  /** The filter keeps the candidates it keeps in their order. */
  lemma {:induction false} FilterKeepsOrder(cs: seq<string>, word: string, atEnd: bool)
    ensures IsSubsequence(Filter(cs, word, atEnd), cs)
    decreases |cs|
  {
    if cs != [] {
      var tail := Filter(cs[1..], word, atEnd);
      FilterKeepsOrder(cs[1..], word, atEnd);
      if Fits(cs[0], word, atEnd) {
        assert Filter(cs, word, atEnd) == [cs[0]] + tail;
        assert ([cs[0]] + tail)[1..] == tail;
      } else {
        assert Filter(cs, word, atEnd) == tail;
      }
    }
  }

  /** Python's `max(xs, key=len)`: the position of the first element of greatest length. */
  function LongestFirst(xs: seq<string>): (k: nat)
    requires |xs| > 0
    ensures k < |xs|
    ensures forall t :: 0 <= t < |xs| ==> |xs[t]| <= |xs[k]|
    ensures forall t :: 0 <= t < k ==> |xs[t]| < |xs[k]|
    decreases |xs|
  {
    if |xs| == 1 then 0
    else
      var k := LongestFirst(xs[..|xs| - 1]);
      if |xs[|xs| - 1]| > |xs[k]| then |xs| - 1 else k
  }

  /** Python's `xs.index(x)`: the position of the first occurrence. */
  function IndexOf(xs: seq<string>, x: string): (k: nat)
    requires x in xs
    ensures k < |xs| && xs[k] == x
    ensures forall t :: 0 <= t < k ==> xs[t] != x
    decreases |xs|
  {
    if xs[0] == x then 0 else 1 + IndexOf(xs[1..], x)
  }

  /** Python's `xs.remove(x)`: one copy of `x` goes, the first one, and the rest keep their
      order. */
  function RemoveFirst(xs: seq<string>, x: string): (r: seq<string>)
    requires x in xs
    ensures |r| == |xs| - 1
    ensures multiset(r) == multiset(xs) - multiset{x}
    ensures forall c :: c in r ==> c in xs
    ensures forall c :: c != x ==> (c in r <==> c in xs)
    ensures forall t :: 0 <= t < |r| ==> r[t] == if t < IndexOf(xs, x) then xs[t] else xs[t + 1]
  {
    var k := IndexOf(xs, x);
    DropAt(xs, k);
    xs[..k] + xs[k + 1..]
  }

  /** Dropping position k loses one copy of xs[k] and shifts what follows it down by one. */
  lemma DropAt(xs: seq<string>, k: nat)
    requires k < |xs|
    ensures var r := xs[..k] + xs[k + 1..];
            && |r| == |xs| - 1
            && multiset(r) == multiset(xs) - multiset{xs[k]}
            && (forall c :: c in r ==> c in xs)
            && (forall c :: c != xs[k] ==> (c in r <==> c in xs))
            && (forall t :: 0 <= t < |r| ==> r[t] == if t < k then xs[t] else xs[t + 1])
  {
    var r := xs[..k] + xs[k + 1..];
    assert xs == xs[..k] + [xs[k]] + xs[k + 1..];
    assert multiset(xs) == multiset(r) + multiset{xs[k]};
  }

  /** The `try` block of `get_orthography` on the fitting candidates: the first longest,
      unless it is excluded and another candidate remains; then its first occurrence is
      removed and the first longest of the rest is taken. None where `max` of an empty list
      raises ValueError and the bare `except` catches it. */
  function PickSpelling(spellings: seq<string>, atEnd: bool): (r: Option<string>)
    ensures r.None? <==> |spellings| == 0
  {
    if |spellings| == 0 then None
    else
      var s := spellings[LongestFirst(spellings)];
      if Excluded(s, atEnd) && |spellings| > 1 then
        var rest := RemoveFirst(spellings, s);
        Some(rest[LongestFirst(rest)])
      else
        Some(s)
  }

  /** The strings a list holds, as a set. */
  ghost function Members(xs: seq<string>): iset<string>
  {
    iset c | c in xs
  }

  /** The tie-break passes over `d` in `pool`: `d` is excluded, strictly longer than every
      other member, and not the only member. */
  ghost predicate TieBreakFires(pool: iset<string>, d: string, atEnd: bool)
  {
    && d in pool && Excluded(d, atEnd)
    && (forall c :: c in pool && c != d ==> |c| < |d|)
    && (exists c :: c in pool && c != d)
  }

  /** The pick is one of the candidates. It is the first longest candidate `d` unless `d` is
      excluded and more than one candidate fits; then it is a longest candidate once the first
      copy of `d` is removed. */
  lemma PickSpellingChoosesLongest(spellings: seq<string>, atEnd: bool)
    requires |spellings| > 0
    ensures PickSpelling(spellings, atEnd).Some?
    ensures PickSpelling(spellings, atEnd).value in spellings
    ensures var d := spellings[LongestFirst(spellings)];
            !(Excluded(d, atEnd) && |spellings| > 1) ==> PickSpelling(spellings, atEnd) == Some(d)
    ensures var d := spellings[LongestFirst(spellings)];
            var s := PickSpelling(spellings, atEnd).value;
            Excluded(d, atEnd) && |spellings| > 1 ==>
              s in RemoveFirst(spellings, d) && forall c :: c in RemoveFirst(spellings, d) ==> |c| <= |s|
    ensures var d := spellings[LongestFirst(spellings)];
            var s := PickSpelling(spellings, atEnd).value;
            var rest := RemoveFirst(spellings, d);
            Excluded(d, atEnd) && |spellings| > 1 ==>
              exists k :: 0 <= k < |rest| && rest[k] == s && forall t :: 0 <= t < k ==> |rest[t]| < |s|
  {
    var d := spellings[LongestFirst(spellings)];
    if Excluded(d, atEnd) && |spellings| > 1 {
      var rest := RemoveFirst(spellings, d);
      assert PickSpelling(spellings, atEnd) == Some(rest[LongestFirst(rest)]);
      RemainderFirstLongest(rest);
    }
  }

  /** The first longest string of a list is in it, bounds every member, and is longer than
      everything before it. */
  lemma RemainderFirstLongest(rest: seq<string>)
    requires |rest| > 0
    ensures var s := rest[LongestFirst(rest)];
            && s in rest && (forall c :: c in rest ==> |c| <= |s|)
            && exists k :: 0 <= k < |rest| && rest[k] == s && forall t :: 0 <= t < k ==> |rest[t]| < |s|
  {
    var k := LongestFirst(rest);
    forall c | c in rest
      ensures |c| <= |rest[k]|
    {
      FirstLongestBounds(rest, c);
    }
  }

  /** Every candidate is at most as long as the first longest one. */
  lemma FirstLongestBounds(spellings: seq<string>, c: string)
    requires |spellings| > 0 && c in spellings
    ensures |c| <= |spellings[LongestFirst(spellings)]|
  {
    var t :| 0 <= t < |spellings| && spellings[t] == c;
  }

  /** When the tie-break passes over a candidate that fits only once, the pick is shorter than
      it and as long as any other candidate. */
  lemma PickSpellingSkipsExcluded(spellings: seq<string>, atEnd: bool, d: string)
    requires |spellings| > 0
    requires TieBreakFires(Members(spellings), d, atEnd) && multiset(spellings)[d] == 1
    ensures PickSpelling(spellings, atEnd).Some?
    ensures var s := PickSpelling(spellings, atEnd).value;
            |s| < |d| && forall c :: c in spellings && c != d ==> |c| <= |s|
  {
    var d0 := spellings[LongestFirst(spellings)];
    FirstLongestBounds(spellings, d);
    assert d0 in Members(spellings);
    assert d0 == d;
    var o :| o in Members(spellings) && o != d;
    assert |spellings| > 1;
    PickSpellingChoosesLongest(spellings, atEnd);
    var rest := RemoveFirst(spellings, d);
    var s := PickSpelling(spellings, atEnd).value;
    assert d !in rest;
  }

  /** A string that the removal of its first copy makes disappear occurred exactly once. */
  lemma RemovedOnlyCopy(xs: seq<string>, x: string)
    requires x in xs && x !in RemoveFirst(xs, x)
    ensures multiset(xs)[x] == 1
  {
    assert multiset(RemoveFirst(xs, x))[x] == 0;
  }

  /** When the first longest candidate is excluded but the tie-break does not pass over it,
      what remains after removing its first copy still holds a string as long as it. */
  lemma RemainderReachesLongest(spellings: seq<string>, atEnd: bool)
    requires |spellings| > 1
    requires Excluded(spellings[LongestFirst(spellings)], atEnd)
    requires !(TieBreakFires(Members(spellings), spellings[LongestFirst(spellings)], atEnd)
               && multiset(spellings)[spellings[LongestFirst(spellings)]] == 1)
    ensures var d := spellings[LongestFirst(spellings)];
            exists c :: c in RemoveFirst(spellings, d) && |d| <= |c|
  {
    var d := spellings[LongestFirst(spellings)];
    var rest := RemoveFirst(spellings, d);
    if d !in rest {
      RemovedOnlyCopy(spellings, d);
      assert rest[0] in rest && rest[0] in Members(spellings) && rest[0] != d;
      assert !TieBreakFires(Members(spellings), d, atEnd);
      var c :| c in Members(spellings) && c != d && |c| >= |d|;
      assert c in rest;
    }
  }

  /** Unless the tie-break passes over a candidate that fits only once, the pick is as long
      as any candidate. */
  lemma PickSpellingKeepsLongest(spellings: seq<string>, atEnd: bool)
    requires |spellings| > 0
    requires forall d :: !(TieBreakFires(Members(spellings), d, atEnd) && multiset(spellings)[d] == 1)
    ensures PickSpelling(spellings, atEnd).Some?
    ensures var s := PickSpelling(spellings, atEnd).value;
            forall c :: c in spellings ==> |c| <= |s|
  {
    var d := spellings[LongestFirst(spellings)];
    PickSpellingChoosesLongest(spellings, atEnd);
    var s := PickSpelling(spellings, atEnd).value;
    if Excluded(d, atEnd) && |spellings| > 1 {
      RemainderReachesLongest(spellings, atEnd);
    }
    assert |d| <= |s|;
    forall c | c in spellings
      ensures |c| <= |s|
    {
      FirstLongestBounds(spellings, c);
    }
  }

  /** `get_orthography(word, word_segment, end)` over the spelling table `table`. */
  function GetOrthography(table: SpellingTable, word: string, seg: seq<Phoneme>, atEnd: bool): (r: Result<Option<string>>)
    ensures r.Err? <==> |seg| == 0 || exists k :: 0 <= k < |seg| && seg[k] !in table
    ensures r.Err? ==> (r.fault == IndexError <==> |seg| == 0)
    ensures r.Err? ==> r.fault == IndexError || r.fault == KeyError
  {
    match Candidates(seg, table)
    case Err(f) => Err(f)
    case Ok(cs) => Ok(PickSpelling(Filter(cs, word, atEnd), atEnd))
  }

  /** The fitting spellings of a fragment. */
  ghost function FittingSpellings(table: SpellingTable, word: string, seg: seq<Phoneme>, atEnd: bool): iset<string>
  {
    iset c | Spells(c, seg, table) && Fits(c, word, atEnd)
  }

  /** The list `spellings` of `get_orthography`: the fitting candidates with their repeats, in
      product order (empty where the candidate list cannot be built). */
  function FittingCandidates(table: SpellingTable, word: string, seg: seq<Phoneme>, atEnd: bool): seq<string>
  {
    match Candidates(seg, table)
    case Err(_) => []
    case Ok(cs) => Filter(cs, word, atEnd)
  }

  /** The reconstructed spelling: None exactly when no spelling of the fragment fits the word.
      Otherwise a fitting spelling. When one fitting spelling `d` is excluded, strictly longer
      than every other and fits only once, while another spelling fits, the pick is shorter
      than `d` and as long as any other fitting spelling; in every other case it is as long as
      any fitting spelling. */
  lemma GetOrthographyChoosesLongest(table: SpellingTable, word: string, seg: seq<Phoneme>, atEnd: bool)
    ensures var r := GetOrthography(table, word, seg, atEnd);
            r.Ok? ==> (r.value.None? <==> FittingSpellings(table, word, seg, atEnd) == iset{})
    ensures var r := GetOrthography(table, word, seg, atEnd);
            r.Ok? && r.value.Some? ==> r.value.value in FittingSpellings(table, word, seg, atEnd)
    ensures var r := GetOrthography(table, word, seg, atEnd);
            var pool := FittingSpellings(table, word, seg, atEnd);
            r.Ok? && r.value.Some? ==>
              forall d :: TieBreakFires(pool, d, atEnd) && multiset(FittingCandidates(table, word, seg, atEnd))[d] == 1 ==>
                |r.value.value| < |d| && forall c :: c in pool && c != d ==> |c| <= |r.value.value|
    ensures var r := GetOrthography(table, word, seg, atEnd);
            var pool := FittingSpellings(table, word, seg, atEnd);
            r.Ok? && r.value.Some? &&
            (forall d :: !(TieBreakFires(pool, d, atEnd) && multiset(FittingCandidates(table, word, seg, atEnd))[d] == 1)) ==>
              forall c :: c in pool ==> |c| <= |r.value.value|
  {
    if |seg| > 0 && forall k :: 0 <= k < |seg| ==> seg[k] in table {
      CandidatesSpell(seg, table);
      var fits := Filter(Candidates(seg, table).value, word, atEnd);
      var pool := FittingSpellings(table, word, seg, atEnd);
      assert fits == FittingCandidates(table, word, seg, atEnd);
      assert Members(fits) == pool;
      if |fits| > 0 {
        assert fits[0] in pool;
        PickSpellingOverPool(fits, atEnd);
      }
    }
  }

  /** The pick's properties, stated over the set of candidates. */
  lemma PickSpellingOverPool(fits: seq<string>, atEnd: bool)
    requires |fits| > 0
    ensures PickSpelling(fits, atEnd).Some? && PickSpelling(fits, atEnd).value in fits
    ensures var s := PickSpelling(fits, atEnd).value;
            forall d :: TieBreakFires(Members(fits), d, atEnd) && multiset(fits)[d] == 1 ==>
              |s| < |d| && forall c :: c in Members(fits) && c != d ==> |c| <= |s|
    ensures var s := PickSpelling(fits, atEnd).value;
            (forall d :: !(TieBreakFires(Members(fits), d, atEnd) && multiset(fits)[d] == 1)) ==>
              forall c :: c in Members(fits) ==> |c| <= |s|
  {
    PickSpellingChoosesLongest(fits, atEnd);
    forall d | TieBreakFires(Members(fits), d, atEnd) && multiset(fits)[d] == 1
      ensures |PickSpelling(fits, atEnd).value| < |d|
      ensures forall c :: c in Members(fits) && c != d ==> |c| <= |PickSpelling(fits, atEnd).value|
    {
      PickSpellingSkipsExcluded(fits, atEnd, d);
    }
    if forall d :: !(TieBreakFires(Members(fits), d, atEnd) && multiset(fits)[d] == 1) {
      PickSpellingKeepsLongest(fits, atEnd);
    }
  }

  /** A repeated candidate defeats the tie-break: with "de" fitting twice at the start of a
      word, removing its first copy leaves the second, and "de" is picked over "d". */
  lemma RepeatedCandidateDefeatsTieBreak()
    ensures PickSpelling(["d", "de", "de"], false) == Some("de")
  {
    RepeatedCandidateLongest();
    RepeatedCandidateRemoved();
    assert ["d", "de"][..1] == ["d"];
    assert LongestFirst(["d", "de"]) == 1;
  }

  /** The first longest of "d", "de", "de" is the first "de". */
  lemma RepeatedCandidateLongest()
    ensures LongestFirst(["d", "de", "de"]) == 1
  {
    var f := ["d", "de", "de"];
    assert f[..1] == ["d"] && f[..2] == ["d", "de"];
    assert LongestFirst(f[..2]) == 1;
  }

  /** Removing the first "de" from "d", "de", "de" leaves "d", "de". */
  lemma RepeatedCandidateRemoved()
    ensures RemoveFirst(["d", "de", "de"], "de") == ["d", "de"]
  {
    var f := ["d", "de", "de"];
    assert f[0] != "de" && f[1..] == ["de", "de"];
    assert IndexOf(f, "de") == 1;
  }

  /** Of "d" and "de", "de" is the longest but ends in "e", so "d" is picked at the start. */
  lemma PickAtStartSkipsFinalE()
    ensures PickSpelling(["d", "de"], false) == Some("d")
  {
    var f := ["d", "de"];
    assert f[..1] == ["d"];
    assert LongestFirst(f) == 1;
    assert f[0] != "de" && f[1..] == ["de"];
    assert IndexOf(f, "de") == 1;
    assert RemoveFirst(f, "de") == ["d"];
  }

  /** Of "d" and "ed", "ed" is the longest but starts with "ed", so "d" is picked at the end. */
  lemma PickAtEndSkipsInitialEd()
    ensures PickSpelling(["d", "ed"], true) == Some("d")
  {
    var f := ["d", "ed"];
    assert f[..1] == ["d"];
    assert LongestFirst(f) == 1;
    assert "ed"[..2] == "ed";
    assert f[0] != "ed" && f[1..] == ["ed"];
    assert IndexOf(f, "ed") == 1;
    assert RemoveFirst(f, "ed") == ["d"];
  }

  /** Filtering keeps or drops the head and filters the rest. */
  lemma FilterCons(c: string, cs: seq<string>, word: string, atEnd: bool)
    ensures Filter([c] + cs, word, atEnd) == (if Fits(c, word, atEnd) then [c] else []) + Filter(cs, word, atEnd)
  {
    assert ([c] + cs)[1..] == cs;
  }

  /** Filtering five strings of which exactly the first and the `k`-th fit keeps those two. */
  lemma FilterFiveKeepsTwo(c0: string, c1: string, c2: string, c3: string, c4: string, k: nat,
                           word: string, atEnd: bool)
    requires k == 3 || k == 4
    requires Fits(c0, word, atEnd) && !Fits(c1, word, atEnd) && !Fits(c2, word, atEnd)
    requires Fits(c3, word, atEnd) <==> k == 3
    requires Fits(c4, word, atEnd) <==> k == 4
    ensures Filter([c0, c1, c2, c3, c4], word, atEnd) == [c0, if k == 3 then c3 else c4]
  {
    var l4 := [c4];
    var l3 := [c3] + l4;
    var l2 := [c2] + l3;
    var l1 := [c1] + l2;
    var tail := if k == 3 then [] else [c4];
    var kept := if k == 3 then c3 else c4;
    FilterCons(c4, [], word, atEnd);
    assert [c4] + [] == l4;
    assert Filter(l4, word, atEnd) == tail;
    FilterCons(c3, l4, word, atEnd);
    assert Filter(l3, word, atEnd) == [kept];
    FilterCons(c2, l3, word, atEnd);
    assert Filter(l2, word, atEnd) == [kept];
    FilterCons(c1, l2, word, atEnd);
    assert Filter(l1, word, atEnd) == [kept];
    FilterCons(c0, l1, word, atEnd);
    assert Filter([c0] + l1, word, atEnd) == [c0] + [kept];
    ConsFive(c0, c1, c2, c3, c4);
    assert [c0] + [kept] == [c0, kept];
  }

  /** A list of five strings built by prepending one at a time. */
  lemma ConsFive(c0: string, c1: string, c2: string, c3: string, c4: string)
    ensures [c0] + ([c1] + ([c2] + ([c3] + [c4]))) == [c0, c1, c2, c3, c4]
  {
  }

  /** Which spellings of D start "deal". */
  lemma DealPrefixes()
    ensures Fits("d", "deal", false) && Fits("de", "deal", false)
    ensures !Fits("dd", "deal", false) && !Fits("tt", "deal", false) && !Fits("ed", "deal", false)
  {
    var w := "deal";
    assert w[..1] == "d" && w[..2] == "de";
    assert "dd"[1] != "de"[1] && "tt"[0] != "de"[0] && "ed"[0] != "de"[0];
  }

  /** The spellings of D that start "deal" are "d" and "de". */
  lemma FilterDeal()
    ensures Filter(["d", "dd", "tt", "de", "ed"], "deal", false) == ["d", "de"]
  {
    DealPrefixes();
    FilterFiveKeepsTwo("d", "dd", "tt", "de", "ed", 3, "deal", false);
  }

  /** Which spellings of D end "bed". */
  lemma BedSuffixes()
    ensures Fits("d", "bed", true) && Fits("ed", "bed", true)
    ensures !Fits("dd", "bed", true) && !Fits("tt", "bed", true) && !Fits("de", "bed", true)
  {
    var w := "bed";
    assert w[2..] == "d" && w[1..] == "ed";
    assert "dd"[0] != "ed"[0] && "tt"[0] != "ed"[0] && "de"[0] != "ed"[0];
  }

  /** The spellings of D that end "bed" are "d" and "ed". */
  lemma FilterBed()
    ensures Filter(["d", "dd", "tt", "de", "ed"], "bed", true) == ["d", "ed"]
  {
    BedSuffixes();
    FilterFiveKeepsTwo("d", "dd", "tt", "de", "ed", 4, "bed", true);
  }

  /** For "deal", the longest spelling of D that starts the word is "de", which ends in "e";
      "d" is chosen. */
  lemma DealStartsWithD(table: SpellingTable)
    requires "D" in table && table["D"] == ["d", "dd", "tt", "de", "ed"]
    ensures GetOrthography(table, "deal", ["D"], false) == Ok(Some("d"))
  {
    assert Candidates(["D"], table) == Ok(["d", "dd", "tt", "de", "ed"]);
    FilterDeal();
    PickAtStartSkipsFinalE();
  }

  /** For "bed", the longest spelling of D that ends the word is "ed", which starts with "ed";
      "d" is chosen. */
  lemma BedEndsWithD(table: SpellingTable)
    requires "D" in table && table["D"] == ["d", "dd", "tt", "de", "ed"]
    ensures GetOrthography(table, "bed", ["D"], true) == Ok(Some("d"))
  {
    assert Candidates(["D"], table) == Ok(["d", "dd", "tt", "de", "ed"]);
    FilterBed();
    PickAtEndSkipsInitialEd();
  }

  /** Both tie-break exclusions on the table itself. */
  lemma SpellingTableTieBreaks()
    ensures GetOrthography(Spellings, "deal", ["D"], false) == Ok(Some("d"))
    ensures GetOrthography(Spellings, "bed", ["D"], true) == Ok(Some("d"))
  {
    assert "D" in Spellings && Spellings["D"] == ["d", "dd", "tt", "de", "ed"];
    DealStartsWithD(Spellings);
    BedEndsWithD(Spellings);
  }
}

=== FILE: overlap.dfy ===
/** The phonological overlap matcher: the filter on difflib's longest match
    (`longest_common_subsequence`), the search over all pronunciation pairs (`get_match`)
    and the cut at the end of the match (`blend`). */
module Overlap {
  import opened Wrappers
  import opened Phonology
  import opened LongestMatch

  /** Rule 1: the match starts word 1 and starts word 2, or starts word 1 at word 2's last
      phoneme. */
  predicate DegenerateStart(w2: Pronunciation, m: Match)
  {
    m.a == 0 && (m.b == 0 || m.b == |w2| - 1)
  }

  /** Rule 2: the match runs to the end of both pronunciations. */
  predicate SharedEnding(w1: Pronunciation, w2: Pronunciation, m: Match)
  {
    m.a + m.size == |w1| && m.b + m.size == |w2|
  }

  /** The case in which rule 3 indexes `word2[b + size]` past the end of word 2: the first two
      rules pass, word 1 has no vowel up to the end of the match, and the match ends word 2. */
  predicate SeamOutOfRange(w1: Pronunciation, w2: Pronunciation, m: Match, isVowel: Classifier)
  {
    && m.a + m.size <= |w1|
    && !DegenerateStart(w2, m)
    && !SharedEnding(w1, w2, m)
    && !HasVowel(w1[..m.a + m.size], isVowel)
    && m.b + m.size == |w2|
  }

  /** A match that survives all five rejection rules: a genuine common block, neither rule 1
      nor rule 2 applies, both seams are natural, and the blend keeps at least
      (|w1| + |w2|) / 2 - 1 phonemes (rule 5, doubled to stay in integers). */
  predicate Admissible(w1: Pronunciation, w2: Pronunciation, m: Match, isVowel: Classifier)
  {
    && CommonBlock(w1, w2, m.a, m.b, m.size)
    && !DegenerateStart(w2, m)
    && !SharedEnding(w1, w2, m)
    // leaving word 1: a vowel up to the end of the match, or a vowel right after it in word 2
    && (HasVowel(w1[..m.a + m.size], isVowel) || (m.b + m.size < |w2| && isVowel(w2[m.b + m.size])))
    // entering word 2: a vowel from the match on, or a vowel right before it in word 1
    && (HasVowel(w2[m.b..], isVowel) || (m.a > 0 && isVowel(w1[m.a - 1])))
    && 2 * (m.a + (|w2| - m.b)) >= |w1| + |w2| - 2
  }

  /** `longest_common_subsequence(word1, word2)`: difflib's longest match, or None when one
      of the five rules rejects it; Err where rule 3 indexes past the end of word 2. */
  function LongestCommonSubsequence(w1: Pronunciation, w2: Pronunciation, isVowel: Classifier): (r: Result<Option<Match>>)
    ensures r.Err? <==> SeamOutOfRange(w1, w2, FindLongestMatch(w1, w2), isVowel)
    ensures r.Err? ==> r.fault == IndexError
    ensures r.Ok? && r.value.Some? ==> r.value.value == FindLongestMatch(w1, w2)
    ensures r == Ok(Some(FindLongestMatch(w1, w2))) <==> Admissible(w1, w2, FindLongestMatch(w1, w2), isVowel)
    ensures r.Ok? && r.value.Some? ==> r.value.value.size >= 1
  {
    var m := FindLongestMatch(w1, w2);
    if m.a == 0 && (m.b == 0 || m.b == |w2| - 1) then Ok(None)
    else if m.a + m.size == |w1| && m.b + m.size == |w2| then Ok(None)
    else if !HasVowel(w1[..m.a + m.size], isVowel) && m.b + m.size == |w2| then Err(IndexError)
    else if !HasVowel(w1[..m.a + m.size], isVowel) && !isVowel(w2[m.b + m.size]) then Ok(None)
    else if !HasVowel(w2[m.b..], isVowel) && (m.a == 0 || !isVowel(w1[m.a - 1])) then Ok(None)
    // rule 5 compares the kept length with the float (|w1| + |w2|) / 2 - 1; doubled here to stay in integers
    else if 2 * (m.a + (|w2| - m.b)) < |w1| + |w2| - 2 then Ok(None)
    else Ok(Some(m))
  }

  /** Pronunciations with no phoneme in common have no overlap: difflib reports (0, 0, 0),
      which rule 1 rejects. */
  lemma NoSharedPhonemeNoOverlap(w1: Pronunciation, w2: Pronunciation, isVowel: Classifier)
    requires forall i, j :: 0 <= i < |w1| && 0 <= j < |w2| ==> w1[i] != w2[j]
    ensures LongestCommonSubsequence(w1, w2, isVowel) == Ok(None)
  {
    var m := FindLongestMatch(w1, w2);
    if m.size > 0 {
      BlockHeadsEqual(w1, w2, m.a, m.b, m.size);
      assert false;
    }
  }

  /** The filter's verdict on each pair of pronunciations, indexed (row, column). */
  type Verdicts = (nat, nat) -> Result<Option<Match>>

  /** The verdicts of `longest_common_subsequence` on the pairs (ps1[i], ps2[j]). */
  function PairVerdicts(ps1: seq<Pronunciation>, ps2: seq<Pronunciation>, isVowel: Classifier): (v: Verdicts)
    ensures forall i: nat, j: nat :: i < |ps1| && j < |ps2| ==> v(i, j) == LongestCommonSubsequence(ps1[i], ps2[j], isVowel)
  {
    (i: nat, j: nat) => if i < |ps1| && j < |ps2| then LongestCommonSubsequence(ps1[i], ps2[j], isVowel) else Ok(None)
  }

  /** The pair at (i, j) is accepted with a match of exactly `size` phonemes. */
  predicate AcceptedWith(v: Verdicts, i: nat, j: nat, size: nat)
  {
    v(i, j).Ok? && v(i, j).value.Some? && v(i, j).value.value.size == size
  }

  /** The match accepted for the pair (ps1[i], ps2[j]). */
  datatype Hit = Hit(m: Match, i: nat, j: nat)

  /** `h` is what Python's `max` picks among the pairs of a rows-by-cols grid enumerated before
      (i, j): an accepted pair with no larger accepted pair before (i, j) and no equally large
      one before it. */
  ghost predicate FirstLargest(v: Verdicts, rows: nat, cols: nat, h: Hit, i: nat, j: nat)
  {
    && h.i < rows && h.j < cols && LexBefore(h.i, h.j, i, j)
    && v(h.i, h.j) == Ok(Some(h.m))
    && (forall i': nat, j': nat, n: nat :: i' < rows && j' < cols && LexBefore(i', j', i, j) && AcceptedWith(v, i', j', n) ==>
          n <= h.m.size)
    && (forall i': nat, j': nat, n: nat :: i' < rows && j' < cols && LexBefore(i', j', h.i, h.j) && AcceptedWith(v, i', j', n) ==>
          n < h.m.size)
  }

  /** The pairs enumerated before (i, j) raised nothing, and `best` is their first largest
      accepted match, None when none was accepted. */
  ghost predicate SearchedUpTo(v: Verdicts, rows: nat, cols: nat, i: nat, j: nat, best: Option<Hit>)
  {
    && (forall i': nat, j': nat :: i' < rows && j' < cols && LexBefore(i', j', i, j) ==> v(i', j').Ok?)
    && (best.None? ==> forall i': nat, j': nat :: i' < rows && j' < cols && LexBefore(i', j', i, j) ==> v(i', j') == Ok(None))
    && (best.Some? ==> FirstLargest(v, rows, cols, best.value, i, j))
  }

  /** Python's `max` step: the running candidate is replaced only by a strictly larger match. */
  function Keep(best: Option<Hit>, m: Match, i: nat, j: nat): Option<Hit>
  {
    if best.Some? && m.size <= best.value.m.size then best else Some(Hit(m, i, j))
  }

  /** The nested loops of `get_match` from pair (i, j) on, with Python's `max` folded into the
      loop: since `Keep` replaces only by a strictly larger match, the first largest wins. An
      exception from any pair ends the search. */
  function SearchPairs(v: Verdicts, rows: nat, cols: nat, i: nat, j: nat, best: Option<Hit>): (r: Result<Option<Hit>>)
    requires i <= rows && j <= cols
    requires SearchedUpTo(v, rows, cols, i, j, best)
    ensures r.Ok? ==> SearchedUpTo(v, rows, cols, rows, 0, r.value)
    ensures r.Err? ==> exists i': nat, j': nat :: i' < rows && j' < cols && v(i', j') == Err(r.fault)
    decreases rows - i, cols - j
  {
    if i == rows then Ok(best)
    else if j == cols then
      SearchNextRow(v, rows, cols, i, best);
      SearchPairs(v, rows, cols, i + 1, 0, best)
    else
      match v(i, j)
      case Err(f) => Err(f)
      case Ok(None) =>
        SearchSkip(v, rows, cols, i, j, best);
        SearchPairs(v, rows, cols, i, j + 1, best)
      case Ok(Some(m)) =>
        SearchKeep(v, rows, cols, i, j, best, m);
        SearchPairs(v, rows, cols, i, j + 1, Keep(best, m, i, j))
  }

  /** The end of a row of word-2 pronunciations moves the scan to the next row. */
  lemma SearchNextRow(v: Verdicts, rows: nat, cols: nat, i: nat, best: Option<Hit>)
    requires i < rows
    requires SearchedUpTo(v, rows, cols, i, cols, best)
    ensures SearchedUpTo(v, rows, cols, i + 1, 0, best)
  {
  }

  /** A rejected pair leaves the running candidate as it is. */
  lemma SearchSkip(v: Verdicts, rows: nat, cols: nat, i: nat, j: nat, best: Option<Hit>)
    requires i < rows && j < cols
    requires SearchedUpTo(v, rows, cols, i, j, best)
    requires v(i, j) == Ok(None)
    ensures SearchedUpTo(v, rows, cols, i, j + 1, best)
  {
  }

  /** An accepted pair is kept exactly when it is larger than the running candidate. */
  lemma SearchKeep(v: Verdicts, rows: nat, cols: nat, i: nat, j: nat, best: Option<Hit>, m: Match)
    requires i < rows && j < cols
    requires SearchedUpTo(v, rows, cols, i, j, best)
    requires v(i, j) == Ok(Some(m))
    ensures SearchedUpTo(v, rows, cols, i, j + 1, Keep(best, m, i, j))
  {
  }

  /** What `get_match` returns: the chosen match and the pronunciation pair it belongs to. */
  datatype PairMatch = PairMatch(m: Match, p1: Pronunciation, p2: Pronunciation)

  /** `get_match(word1_pronunciations, word2_pronunciations)`, stated over the verdicts `v` of
      the pairs: an exception from some pair propagates, None when no pair is accepted, and
      otherwise the first largest accepted match with its pair. */
  function GetMatch(ps1: seq<Pronunciation>, ps2: seq<Pronunciation>, isVowel: Classifier): (r: Result<Option<PairMatch>>)
    ensures var v := PairVerdicts(ps1, ps2, isVowel);
            r.Err? <==> exists i: nat, j: nat :: i < |ps1| && j < |ps2| && v(i, j).Err?
    ensures r.Err? ==> r.fault == IndexError
    ensures var v := PairVerdicts(ps1, ps2, isVowel);
            r == Ok(None) <==> forall i: nat, j: nat :: i < |ps1| && j < |ps2| ==> v(i, j) == Ok(None)
    ensures r.Ok? && r.value.Some? ==>
              exists h :: && FirstLargest(PairVerdicts(ps1, ps2, isVowel), |ps1|, |ps2|, h, |ps1|, 0)
                          && r.value.value == PairMatch(h.m, ps1[h.i], ps2[h.j])
  {
    var v := PairVerdicts(ps1, ps2, isVowel);
    match SearchPairs(v, |ps1|, |ps2|, 0, 0, None)
    case Err(f) =>
      PairFaultIsIndexError(ps1, ps2, isVowel, f);
      Err(f)
    case Ok(None) => Ok(None)
    case Ok(Some(h)) =>
      assert FirstLargest(v, |ps1|, |ps2|, h, |ps1|, 0);
      Ok(Some(PairMatch(h.m, ps1[h.i], ps2[h.j])))
  }

  /** The only exception a pair can raise is rule 3's IndexError. */
  lemma PairFaultIsIndexError(ps1: seq<Pronunciation>, ps2: seq<Pronunciation>, isVowel: Classifier, f: Fault)
    requires exists i: nat, j: nat :: i < |ps1| && j < |ps2| && PairVerdicts(ps1, ps2, isVowel)(i, j) == Err(f)
    ensures f == IndexError
  {
    var i: nat, j: nat :| i < |ps1| && j < |ps2| && PairVerdicts(ps1, ps2, isVowel)(i, j) == Err(f);
    assert LongestCommonSubsequence(ps1[i], ps2[j], isVowel) == Err(f);
  }

  /** `blend(word1, word2, match)`: word 1 through the end of the match and word 2 after the
      end of the match (Python slices clamp at the sequence length). */
  function Blend(w1: Pronunciation, w2: Pronunciation, m: Match): (r: (Pronunciation, Pronunciation))
    ensures |r.0| == if m.a + m.size <= |w1| then m.a + m.size else |w1|
    ensures |r.1| == if m.b + m.size <= |w2| then |w2| - (m.b + m.size) else 0
    ensures r.0 == w1[..|r.0|] && r.1 == w2[|w2| - |r.1|..]
  {
    var end1 := if m.a + m.size <= |w1| then m.a + m.size else |w1|;
    var end2 := if m.b + m.size <= |w2| then m.b + m.size else |w2|;
    (w1[..end1], w2[end2..])
  }

  /** Cut at a common block, the two fragments read as word 1 up to the block followed by word 2
      from the block on, and the first fragment ends with the shared block. */
  lemma BlendJoinsAtBlock(w1: Pronunciation, w2: Pronunciation, m: Match)
    requires CommonBlock(w1, w2, m.a, m.b, m.size)
    ensures Blend(w1, w2, m).0 + Blend(w1, w2, m).1 == w1[..m.a] + w2[m.b..]
    ensures Blend(w1, w2, m).0[m.a..] == w2[m.b..m.b + m.size]
  {
    var (f1, f2) := Blend(w1, w2, m);
    assert f1 == w1[..m.a] + w1[m.a..m.a + m.size];
    assert w2[m.b..] == w2[m.b..m.b + m.size] + f2;
  }

  /** The blend of an accepted match keeps at least one phoneme of word 1, keeps what rule 5
      demands, and has a natural seam leaving word 1. */
  lemma AcceptedBlendIsBalanced(w1: Pronunciation, w2: Pronunciation, isVowel: Classifier)
    requires LongestCommonSubsequence(w1, w2, isVowel).Ok?
    requires LongestCommonSubsequence(w1, w2, isVowel).value.Some?
    ensures var m := LongestCommonSubsequence(w1, w2, isVowel).value.value;
            var (f1, f2) := Blend(w1, w2, m);
            && |f1| >= 1
            && 2 * (|f1| + |f2|) >= |w1| + |w2| - 2
            && (HasVowel(f1, isVowel) || (|f2| > 0 && isVowel(f2[0])))
  {
    var m := LongestCommonSubsequence(w1, w2, isVowel).value.value;
    assert Admissible(w1, w2, m, isVowel);
  }
}

=== FILE: phonology.dfy ===
/** Phonemes, pronunciations and the vowel/consonant classification of phonemes. */
module Phonology {
  import opened Wrappers

  /** A CMU phoneme code such as "AE" or "K". */
  type Phoneme = string

  /** One way of saying a word: its phonemes from first sound to last. */
  type Pronunciation = seq<Phoneme>

  /** The phoneme store's classification: true exactly for the phonemes recorded as "vowel". */
  type Classifier = Phoneme -> bool

  /** Some phoneme of `s` is a vowel. */
  predicate HasVowel(s: Pronunciation, isVowel: Classifier)
  {
    exists k :: 0 <= k < |s| && isVowel(s[k])
  }

  /** The positions of the vowels of `s`, in increasing order (the list comprehension
      over `enumerate` of the phoneme classes). */
  function VowelIndices(s: Pronunciation, isVowel: Classifier): (r: seq<nat>)
    ensures forall t :: 0 <= t < |r| ==> r[t] < |s| && isVowel(s[r[t]])
    ensures forall t, u :: 0 <= t < u < |r| ==> r[t] < r[u]
    ensures forall k :: 0 <= k < |s| && isVowel(s[k]) ==> k in r
    decreases |s|
  {
    if |s| == 0 then []
    else
      var init := VowelIndices(s[..|s| - 1], isVowel);
      init + (if isVowel(s[|s| - 1]) then [|s| - 1] else [])
  }

  /** The first phoneme is a vowel exactly when the vowel positions start with 0. */
  lemma VowelAtOnset(s: Pronunciation, isVowel: Classifier)
    ensures |s| > 0 && isVowel(s[0]) <==> |VowelIndices(s, isVowel)| > 0 && VowelIndices(s, isVowel)[0] == 0
  {
    var vs := VowelIndices(s, isVowel);
    if |s| > 0 && isVowel(s[0]) {
      var t :| 0 <= t < |vs| && vs[t] == 0;
    }
  }

  /** Python's `types.index("vowel")`: the position of the first vowel, or None where Python
      raises ValueError. */
  function FirstVowel(s: Pronunciation, isVowel: Classifier): (r: Option<nat>)
    ensures r.Some? ==> r.value < |s| && isVowel(s[r.value])
    ensures r.Some? ==> forall k :: 0 <= k < r.value ==> !isVowel(s[k])
    ensures r.None? <==> !HasVowel(s, isVowel)
    decreases |s|
  {
    if |s| == 0 then None
    else if isVowel(s[0]) then Some(0)
    else
      match FirstVowel(s[1..], isVowel)
      case None => None
      case Some(j) => Some(j + 1)
  }
}

=== FILE: wrappers.dfy ===
/** Failure-carrying result types shared by the blending engine. */
module Wrappers {

  /** A value a Python function may return, or its `None`. */
  datatype Option<+T> = None | Some(value: T)

  /** The Python exceptions the engine can raise on inputs it does not handle. */
  datatype Fault =
    | IndexError  // a list index out of range
    | ValueError  // `list.index` of a value that is not in the list
    | KeyError    // a phoneme missing from the spelling table

  /** Either the value a Python function returns or the exception it raises. */
  datatype Result<+T> = Ok(value: T) | Err(fault: Fault)
}
